=== FILE: README.md ===
# NPC finite state machine — a Dafny model

This project models the behaviour controller of a non-player character (NPC).
It is a finite state machine with five states: Idle, Patrol, Pursue, Attack and RunAway.
Each state runs an Enter / Update / Exit lifecycle through the uniform `State.Process` entry point.
The `AI` component starts the machine in Idle and calls `Process` once per frame.
The `GameEnvironment` singleton supplies the patrol checkpoints, built lazily and ordered by name.

The model is functional:

- `Machine.State` is a value holding the concrete state with its locals (`Mode`: Patrol's `currentIndex`, RunAway's safe location), the lifecycle `Stage`, and the `nextState` it has constructed.
- `Machine.Process` maps a state, the registry singleton and one frame's `Observation` to an `Outcome`. The outcome holds the object as mutated, the state returned, the engine calls made and the exception thrown, if any.
- The engine calls (animator triggers, agent speed / stop / destination, the shot sound) are recorded as a `Command` log. They have no further semantics here.
- The host's geometry is an input: the distance to the player, the front angle and the rear angle (`Perception.Sight`). So are the agent's `remainingDistance` and `hasPath`, the distance to each checkpoint, the `Random.Range(0, 100)` draw (`Roll`), and the results of the two tag queries.
- The two exceptions the model keeps are `Fault` values, not preconditions. Indexing the empty checkpoint list is one (State.cs:236). Dereferencing a missing safe location is the other (State.cs:405). An exception ends `Process` early, so the driver keeps the same object, mutated as far as it got. This is `Outcome.returned == Outcome.self`.

Modules, following the source files:

| file | module | source |
|---|---|---|
| perception.dfy | `Perception` | State.cs `CanSeePlayer`, `IsPlayerBehind`, `CanAttackPlayer` |
| registry.dfy | `Registry` | GameEnvironment.cs |
| waypoints.dfy | `Waypoints` | Patrol's index arithmetic in State.cs |
| machine.dfy | `Machine` | State.cs: lifecycle, the five states, `Process` |
| driver.dfy | `Driver` | AI.cs |
| wrappers.dfy | `Wrappers` | `Option` for nullable references |

Behaviour worth knowing, as the code has it:

- Patrol and Pursue set the agent's speed and un-stop it in their constructors. That happens during the predecessor's Update, before the predecessor's Exit, not in their own Enter.
- With an empty registry, Patrol's first arrival throws. The index first wraps to 0, then `Checkpoints[0]` is read. The same happens on every later arrival. As long as the agent's `remainingDistance` stays below 1 (no destination is ever set, so it is a free input here), the NPC stays in Patrol and never reaches the perception checks. A frame with `remainingDistance` of 1 or more skips the indexing and runs the checks (`PatrolArrival`, `FaultsComeFromMissingObjects`).
- Without a "Safe" object, RunAway's Enter throws on every frame before leaving stage ENTER (`RunAwayChoice`).
- The nearest-checkpoint scan breaks ties towards the earlier checkpoint in registry order. So the chosen checkpoint depends on the registry order when two checkpoints are equally near.
- Calling `Process` again on a retired state (stage EXIT) would run Exit again and return the stored successor. The driver never does this: its current state is never in stage EXIT (`Driver.Invariant`).

## Model

| member | source | states |
|---|---|---|
| Perception.CanSeePlayer | Assets/Scripts/State.cs:80-94 | the player is seen exactly when the distance is below 10 and the angle from the NPC's forward is below 30° (a definition; its properties are the lemmas below) |
| Perception.IsPlayerBehind | Assets/Scripts/State.cs:100-109 | the player is behind exactly when the distance is below 2 and the angle of the player-to-NPC direction from the NPC's forward is below 30° (a definition) |
| Perception.CanAttackPlayer | Assets/Scripts/State.cs:115-125 | the player is in range exactly when the distance is below 7 (a definition) |
| Perception.ThresholdsAreStrict | Assets/Scripts/State.cs:80-126 | a distance or angle exactly at a threshold (10, 30°, 2, 30°, 7) is never perceived |
| Perception.PerceptionMonotone | Assets/Scripts/State.cs:80-126 | moving the player closer or nearer the axis never loses sight, rear detection or attack range |
| Perception.RangesNest | Assets/Scripts/State.cs:37-39 | a player close behind is always in shooting range; a player in shooting range inside the vision angle is always seen |
| Perception.ConesDisjoint | Assets/Scripts/State.cs:83-107 | with opposite directions (supplementary angles) the vision cone and the rear cone never both hold |
| Registry.Insert | Assets/Scripts/GameEnvironment.cs:38 | one insertion step of the sort adds exactly the inserted checkpoint (multiset) |
| Registry.OrderByName | Assets/Scripts/GameEnvironment.cs:36-38 | the ordered list is sorted by name, a permutation of the tag query's result, and keeps equally named checkpoints in discovery order |
| Registry.NameOrderingUnique | Assets/Scripts/GameEnvironment.cs:38 | sorted + permutation + stable determine the list: any two lists with those properties are equal |
| Registry.Singleton | Assets/Scripts/GameEnvironment.cs:24-43 | with no instance the registry is a stable name ordering of the query result; with an instance, that instance is returned |
| Registry.SingletonBuiltOnce | Assets/Scripts/GameEnvironment.cs:31-41 | after the first access, later accesses return the same registry whatever the tag query would now return |
| Waypoints.Scan | Assets/Scripts/State.cs:199-211 | the scan loop (strict `<` against the best so far, infinity at first) ends one before the first index of a least distance |
| Waypoints.EnterIndex | Assets/Scripts/State.cs:197-211 | after Patrol.Enter, currentIndex + 1 is the first nearest checkpoint, so -1 <= currentIndex <= Count-2; with no checkpoints it is unchanged |
| Waypoints.FirstNearestUnique | Assets/Scripts/State.cs:206-208 | the first-nearest index is uniquely determined by the distances |
| Waypoints.Advance | Assets/Scripts/State.cs:223-233 | an arrival moves currentIndex to (currentIndex + 1) mod Count, within [0, Count); with Count = 0 it moves to 0 |
| Waypoints.FirstAdvanceIsNearest | Assets/Scripts/State.cs:208 | the first arrival after Enter heads exactly for the nearest checkpoint |
| Waypoints.PatrolVisitsCyclically | Assets/Scripts/State.cs:226-233 | n arrivals from checkpoint k lead to checkpoint (k + n) mod Count: the patrol visits the registry in order, cyclically |
| Machine.EdgeIrreflexive | Assets/Scripts/State.cs:157-418 | no state names its own kind as successor |
| Machine.Initial | Assets/Scripts/State.cs:135-395 | a successor of kind K is constructed as a K, fresh (stage ENTER, no successor, Patrol's currentIndex -1), and a RunAway holds the safe location found when it is constructed |
| Machine.Construction | Assets/Scripts/State.cs:185-275 | only the Patrol and Pursue constructors issue engine commands: each sets the agent's speed (2 for Patrol, 5 for Pursue) and then un-stops it |
| Machine.Transit | Assets/Scripts/State.cs:155-419 | a transition stores a fresh successor of the chosen kind, sets the stage to EXIT, issues the successor's constructor calls and changes nothing else |
| Machine.EnterStage | Assets/Scripts/State.cs:144-407 | each Enter starts by setting its own animation trigger and ends in UPDATE; it throws (staying in ENTER) exactly for a RunAway without a safe location |
| Machine.UpdateStage | Assets/Scripts/State.cs:153-420 | each Update either stays in UPDATE with no successor or moves to EXIT with a fresh successor along an edge of the graph; only Patrol can throw |
| Machine.ExitStage | Assets/Scripts/State.cs:170-429 | each Exit resets exactly the trigger of its own kind and ends in EXIT |
| Machine.Process | Assets/Scripts/State.cs:63-74 | returns nextState exactly when the stage ends at EXIT, and the object itself otherwise; the successor is fresh and along an edge; an exception means no transition |
| Machine.EnterThenUpdate | Assets/Scripts/State.cs:63-74 | from ENTER, when Enter does not throw, the call is exactly Enter's calls followed by a whole Process call on the state Enter leaves in UPDATE, so Update (and Exit) run in the same call |
| Machine.IdleChoice | Assets/Scripts/State.cs:153-165 | Idle leaves iff the player is seen or the roll is below 10; seen means Pursue whatever the roll, otherwise Patrol |
| Machine.PatrolEnterHeadsForNearest | Assets/Scripts/State.cs:197-236 | on Patrol's first tick, an arrival heads for the first nearest checkpoint; with no checkpoints an arrival throws |
| Machine.PatrolEnterArrives | Assets/Scripts/State.cs:197-236 | on a first tick that arrives, the index is the scan's result advanced once, a destination is set for it, and the call throws exactly when the registry is empty |
| Machine.PatrolEnterWaits | Assets/Scripts/State.cs:197-236 | on a first tick that does not arrive, the index stays at the scan's result and nothing throws |
| Machine.PatrolArrival | Assets/Scripts/State.cs:220-251 | on arrival the index advances and a destination is set before the perception checks; seen means Pursue, else player behind means RunAway |
| Machine.PursueChoice | Assets/Scripts/State.cs:289-309 | the destination is always the player; Pursue leaves only with a path, for Attack when in range, else for Patrol when sight is lost |
| Machine.AttackChoice | Assets/Scripts/State.cs:351-369 | Attack leaves, for Idle, exactly when the player is out of shooting range |
| Machine.AttackStopsShotOnce | Assets/Scripts/State.cs:340-368 | the shot sound is stopped exactly once in the tick Attack leaves and never otherwise; it is started once, on Enter |
| Machine.AttackCommands | Assets/Scripts/State.cs:340-378 | the exact engine calls of an active Attack state in one tick |
| Machine.RunAwayChoice | Assets/Scripts/State.cs:400-420 | RunAway heads for the safe location on Enter, throws when there is none, and leaves for Idle exactly when remaining distance < 1 |
| Machine.ProcessKeepsConsistent | Assets/Scripts/State.cs:183-236 | Process keeps Patrol's currentIndex within the registry (-1 before the first arrival) |
| Machine.FaultsComeFromMissingObjects | Assets/Scripts/State.cs:223-405 | Process throws exactly for a Patrol arriving with an empty registry or a RunAway entering without a safe location |
| Driver.Start | Assets/Scripts/AI.cs:23-28 | the first state is a fresh Idle in stage ENTER, and the driver invariant holds |
| Driver.Tick | Assets/Scripts/AI.cs:34-38 | one Process per frame: either the same state carries on or a fresh successor along an edge takes over; the invariant is kept; a built registry is unchanged |
| Driver.Run | Assets/Scripts/AI.cs:34-38 | over any frames, each world is the previous one ticked once, and no current state is ever a retired one |
| Driver.RunFollowsGraph | Assets/Scripts/AI.cs:37 | consecutive states of a run have the same kind or follow an edge of the transition graph |
| Driver.RegistryBuiltOnce | Assets/Scripts/GameEnvironment.cs:31-41 | once the registry exists in a run, it never changes |
| Driver.FirstTickSeesPlayer | Assets/Scripts/AI.cs:27 | a player seen on the first frame makes the driver's state a fresh Pursue |
| Driver.PatrolTick | Assets/Scripts/State.cs:223-236 | a quiet arrival only advances Patrol's index |
| Driver.PatrolTour | Assets/Scripts/State.cs:223-236 | a patrol that keeps arriving unseen heads, after k frames, for checkpoint (i + k) mod Count |

## Left out

- Vector geometry (`Vector3.Angle`, `magnitude`, `Vector3.Distance`) is left out. Distances and angles are real-valued inputs, and 32-bit float rounding is not modelled.
- Attack's rotation towards the player (`Quaternion.Slerp` / `LookRotation` scaled by `Time.deltaTime`, State.cs:354-360) is left out. It changes the NPC's facing. The model takes the facing only through the free `angle` / `rearAngle` inputs of later frames. Attack's own decision reads only the distance.
- Animator, NavMeshAgent and AudioSource calls appear only as an abstract command log. The model assumes the NPC has an AudioSource, so `shoot` is never null.
- The player transform (the inspector field of AI.cs:17, read at State.cs:83, 103, 118 and 292), the NavMeshAgent and the Animator (from `GetComponent`, AI.cs:25-26) are assumed present. The null-reference exceptions their absence would raise are not modelled.
- Machine.FaultsComeFromMissingObjects: its "exactly" covers only the two exceptions the model keeps. A missing player, agent or animator would also throw, and those references are assumed present.
- `Random.Range(0, 100)` is an input integer in [0, 100), not a probability. The source draws it only when the player is not seen; that effect on the random stream is not modelled.
- `FindGameObjectsWithTag("Checkpoint")` and `FindGameObjectWithTag("Safe")` are inputs of each frame. A checkpoint is its name and an object identity; the safe location is an identity or none.
- Registry.OrderByName: names are compared ordinally (character codes). The C# default string comparer used by `OrderBy` is culture-sensitive, and that collation is not modelled.
- A retired state's `nextState` is, in the source, a reference to the object the driver then runs and mutates. In the model `State.next` is a copy that stays fresh. The aliasing is not modelled; the driver never processes a retired state (`Driver.Invariant`), so no result depends on it.
- The unused `SLEEP` state name has no class and no transitions, so it is not modelled.
- Thread safety of the lazy singleton is left out. The source is single-threaded.
- Several NPCs sharing one registry are left out. The model has one driver, with the singleton carried in its `World`.

=== FILE: driver.dfy ===
/**
 The AI component of AI.cs: it starts in a new Idle state and, once per
 frame, replaces its current state with what Process returns. The registry
 singleton is process-wide state and travels with the driver here.
 */
module Driver {
  import opened Wrappers
  import opened Perception
  import opened Registry
  import opened Waypoints
  import opened Machine

  /** The driver's current state and the registry singleton. */
  datatype World = World(current: State, registry: Option<Environment>)

  /** What every tick preserves: the current state is consistent with the
      registry, and it is never a retired state (one in stage EXIT). */
  ghost predicate Invariant(w: World)
  {
    Consistent(w.current, w.registry) && w.current.stage != Exit
  }

  /** AI.Start: the first state is a new Idle. */
  function Start(registry: Option<Environment>): (w: World)
    ensures Invariant(w)
    ensures w.current.mode.Name() == Idle && Fresh(w.current)
    ensures w.registry == registry
  {
    World(New(Idling), registry)
  }

  /** AI.Update: one Process call on the current state; its result becomes
      the current state. Either the same state carries on (same kind, no
      successor) or a fresh successor along an edge of the graph takes over. */
  function Tick(w: World, obs: Observation): (r: World)
    requires Invariant(w)
    ensures Invariant(r)
    ensures
      || (r.current.mode.Name() == w.current.mode.Name() && r.current.next.None?)
      || (Edge(w.current.mode.Name(), r.current.mode.Name()) && Fresh(r.current))
    ensures w.registry.Some? ==> r.registry == w.registry
  {
    var o := Process(w.current, w.registry, obs);
    ProcessKeepsConsistent(w.current, w.registry, obs);
    World(o.returned, o.instance)
  }

  /** The worlds the driver passes through over a sequence of frames. */
  function Run(w: World, frames: seq<Observation>): (trace: seq<World>)
    requires Invariant(w)
    ensures |trace| == |frames| + 1 && trace[0] == w
    ensures forall i :: 0 <= i < |trace| ==> Invariant(trace[i])
    ensures forall i :: 0 <= i < |frames| ==> trace[i + 1] == Tick(trace[i], frames[i])
    ensures forall i :: 0 <= i < |frames| && trace[i].registry.Some? ==> trace[i + 1].registry == trace[i].registry
    decreases |frames|
  {
    if frames == [] then [w]
    else
      var rest := Run(Tick(w, frames[0]), frames[1..]);
      assert forall i :: 0 < i < |frames| ==> frames[1..][i - 1] == frames[i];
      [w] + rest
  }

  /** Consecutive states of a run are of the same kind or follow an edge of
      the transition graph; a state of a new kind starts fresh. */
  lemma {:induction false} RunFollowsGraph(w: World, frames: seq<Observation>)
    requires Invariant(w)
    ensures var trace := Run(w, frames);
      forall i :: 0 <= i < |frames| ==>
        || trace[i + 1].current.mode.Name() == trace[i].current.mode.Name()
        || (Edge(trace[i].current.mode.Name(), trace[i + 1].current.mode.Name()) && Fresh(trace[i + 1].current))
  {
    var trace := Run(w, frames);
    forall i | 0 <= i < |frames|
      ensures || trace[i + 1].current.mode.Name() == trace[i].current.mode.Name()
              || (Edge(trace[i].current.mode.Name(), trace[i + 1].current.mode.Name()) && Fresh(trace[i + 1].current))
    {
      assert trace[i + 1] == Tick(trace[i], frames[i]);
    }
  }

  /** Once the registry is built it never changes again. */
  lemma {:induction false} RegistryBuiltOnce(w: World, frames: seq<Observation>, i: nat, j: nat)
    requires Invariant(w) && i <= j <= |frames|
    requires Run(w, frames)[i].registry.Some?
    ensures Run(w, frames)[j].registry == Run(w, frames)[i].registry
    decreases j - i
  {
    if i < j {
      var trace := Run(w, frames);
      RegistryBuiltOnce(w, frames, i, j - 1);
      assert trace[j - 1].registry.Some?;
    }
  }

  /** A visible player makes the very first tick leave Idle for Pursue. */
  lemma FirstTickSeesPlayer(registry: Option<Environment>, obs: Observation)
    requires CanSeePlayer(obs.sight)
    ensures Tick(Start(registry), obs).current == New(Pursuing)
  {
  }

  /** One quiet arrival of a patrol: the index advances and nothing else changes. */
  lemma PatrolTick(w: World, obs: Observation)
    requires Invariant(w) && w.current.mode.Patrolling? && w.current.stage == Update
    requires w.registry.Some? && 0 <= w.current.mode.currentIndex < |w.registry.value.checkpoints|
    requires obs.remainingDistance < 1.0 && !CanSeePlayer(obs.sight) && !IsPlayerBehind(obs.sight)
    ensures Tick(w, obs) ==
      World(State(Patrolling(Advance(w.current.mode.currentIndex, |w.registry.value.checkpoints|)), Update, None),
            w.registry)
  {
    PatrolArrival(w.current, w.registry, obs);
  }

  /** The patrol invariant of PatrolTour carried over one frame. */
  lemma PatrolTourStep(prev: World, obs: Observation, i: nat, k: nat, n: nat)
    requires 0 < k && 0 < n && Invariant(prev) && prev.registry.Some? && |prev.registry.value.checkpoints| == n
    requires prev.current == State(Patrolling((i + k - 1) % n), Update, None)
    requires obs.remainingDistance < 1.0 && !CanSeePlayer(obs.sight) && !IsPlayerBehind(obs.sight)
    ensures Tick(prev, obs) == World(State(Patrolling((i + k) % n), Update, None), prev.registry)
  {
    PatrolTick(prev, obs);
    ModSuccessor(i + k - 1, n);
  }

  /** A patrol that keeps arriving, unseen and unthreatened, tours the
      registry in order: after k frames it heads for checkpoint (i + k) mod n. */
  lemma {:induction false} PatrolTour(w: World, frames: seq<Observation>, k: nat)
    requires Invariant(w) && w.current.mode.Patrolling? && w.current.stage == Update
    requires w.registry.Some? && 0 <= w.current.mode.currentIndex < |w.registry.value.checkpoints|
    requires forall f :: 0 <= f < |frames| ==>
      && frames[f].remainingDistance < 1.0
      && !CanSeePlayer(frames[f].sight)
      && !IsPlayerBehind(frames[f].sight)
    requires k <= |frames|
    ensures Run(w, frames)[k].current ==
      State(Patrolling((w.current.mode.currentIndex + k) % |w.registry.value.checkpoints|), Update, None)
    decreases k
  {
    var n := |w.registry.value.checkpoints|;
    var i := w.current.mode.currentIndex;
    var trace := Run(w, frames);
    if k == 0 {
      ModUnique(i, n, 0, i);
      assert w.current.next.None?;
    } else {
      var prev, obs := trace[k - 1], frames[k - 1];
      assert Invariant(prev) && prev.current == State(Patrolling((i + k - 1) % n), Update, None)
          && prev.registry == w.registry by {
        PatrolTour(w, frames, k - 1);
        RegistryBuiltOnce(w, frames, 0, k - 1);
      }
      assert obs.remainingDistance < 1.0 && !CanSeePlayer(obs.sight) && !IsPlayerBehind(obs.sight);
      PatrolTourStep(prev, obs, i, k, n);
      assert trace[k] == Tick(prev, obs);
    }
  }
}

=== FILE: machine.dfy ===
/**
 The NPC state machine of State.cs: the five concrete states, their
 Enter/Update/Exit logic and the uniform Process entry point.

 A state object is a value here: its mode (which concrete state, with that
 state's locals), its lifecycle stage, and the successor it has constructed.
 The engine calls a state makes (animator triggers, agent speed and stopping,
 destinations, the shot sound) are recorded as a command log; geometry, the
 random roll and the scene queries are inputs collected in an Observation.
 */
module Machine {
  import opened Wrappers
  import opened Perception
  import opened Registry
  import opened Waypoints

  /** The state names (`STATE`; the unused SLEEP has no state class). */
  datatype Kind = Idle | Patrol | Pursue | Attack | RunAway

  /** The lifecycle stage (`EVENT`). */
  datatype Stage = Enter | Update | Exit

  /** Identity of the scene object tagged "Safe". */
  type Place = nat

  /** A concrete state with its own locals: Patrol's currentIndex and
      RunAway's safe location (None for the null the lookup can return). */
  datatype Mode =
    | Idling
    | Patrolling(currentIndex: int)
    | Pursuing
    | Attacking
    | RunningAway(safeLocation: Option<Place>)
  {
    function Name(): Kind
    {
      match this
      case Idling => Idle
      case Patrolling(_) => Patrol
      case Pursuing => Pursue
      case Attacking => Attack
      case RunningAway(_) => RunAway
    }
  }

  /** A state object: mode, stage and the `nextState` it has constructed. */
  datatype State = State(mode: Mode, stage: Stage, next: Option<State>)

  datatype Trigger = IsIdle | IsWalking | IsRunning | IsShooting

  datatype Goal = ToCheckpoint(checkpoint: Checkpoint) | ToPlayer | ToSafeLocation(place: Place)

  /** The engine calls the machine makes, in the order it makes them. */
  datatype Command =
    | SetTrigger(trigger: Trigger)
    | ResetTrigger(trigger: Trigger)
    | SetSpeed(speed: real)
    | SetStopped(stopped: bool)
    | SetDestination(goal: Goal)
    | PlayShot
    | StopShot

  /** The two exceptions the model keeps: indexing an empty checkpoint list,
      and dereferencing a missing safe location. */
  datatype Fault = CheckpointOutOfRange | MissingSafeLocation

  /** Random.Range(0, 100). */
  type Roll = r: int | 0 <= r < 100

  /** What the host reports during one tick. */
  datatype Observation = Observation(
    sight: Sight,
    remainingDistance: real,                // agent.remainingDistance
    hasPath: bool,                          // agent.hasPath
    roll: Roll,                             // Idle's random draw
    distanceTo: Checkpoint -> real,         // distance from the NPC to a checkpoint
    taggedCheckpoints: seq<Checkpoint>,     // FindGameObjectsWithTag("Checkpoint")
    safeLocation: Option<Place>)            // FindGameObjectWithTag("Safe")

  /** The animator trigger each state sets on Enter and resets on Exit. */
  function Animation(k: Kind): Trigger
  {
    match k
    case Idle => IsIdle
    case Patrol => IsWalking
    case Pursue => IsRunning
    case Attack => IsShooting
    case RunAway => IsRunning
  }

  /** The transition graph: the successors each state's Update can construct. */
  predicate Edge(from: Kind, to: Kind)
  {
    match from
    case Idle => to == Pursue || to == Patrol
    case Patrol => to == Pursue || to == RunAway
    case Pursue => to == Attack || to == Patrol
    case Attack => to == Idle
    case RunAway => to == Idle
  }

  /** No state ever names its own kind as successor. */
  lemma EdgeIrreflexive(k: Kind)
    ensures !Edge(k, k)
  {
  }

  /** The base constructor: a new state starts in stage ENTER with no successor. */
  function New(mode: Mode): State
  {
    State(mode, Enter, None)
  }

  /** The mode a successor of kind `k` is constructed with: Patrol starts at
      currentIndex -1, RunAway looks up the safe location at construction. */
  function Initial(k: Kind, obs: Observation): (m: Mode)
    ensures m.Name() == k
    ensures Fresh(New(m))
    ensures m.RunningAway? ==> m.safeLocation == obs.safeLocation
  {
    match k
    case Idle => Idling
    case Patrol => Patrolling(-1)
    case Pursue => Pursuing
    case Attack => Attacking
    case RunAway => RunningAway(obs.safeLocation)
  }

  /** The engine commands issued by the constructors: Patrol and Pursue set
      the agent's speed and un-stop it. */
  function Construction(k: Kind): (c: seq<Command>)
    ensures c != [] <==> k == Patrol || k == Pursue
    ensures c != [] ==> |c| == 2 && c[0].SetSpeed? && c[1] == SetStopped(false)
    ensures k == Patrol ==> SetSpeed(2.0) in c
    ensures k == Pursue ==> SetSpeed(5.0) in c
  {
    match k
    case Patrol => [SetSpeed(2.0), SetStopped(false)]
    case Pursue => [SetSpeed(5.0), SetStopped(false)]
    case _ => []
  }

  /** A state as its constructor leaves it. */
  ghost predicate Fresh(s: State)
  {
    && s.stage == Enter
    && s.next.None?
    && (s.mode.Patrolling? ==> s.mode.currentIndex == -1)
  }

  /** The shape every state object has: a successor exists exactly in stage
      EXIT, and it is a fresh state along an edge of the graph. */
  ghost predicate WellFormed(s: State)
  {
    && (s.stage == Exit <==> s.next.Some?)
    && (s.next.Some? ==> Fresh(s.next.value) && Edge(s.mode.Name(), s.next.value.mode.Name()))
  }

  /** Patrol's currentIndex stays within the registry: -1 before the first
      arrival, otherwise a valid index (or 0 when the registry is empty). */
  ghost predicate Consistent(s: State, instance: Option<Environment>)
  {
    && WellFormed(s)
    && (s.mode.Patrolling? ==>
          if s.stage == Enter then s.mode.currentIndex == -1
          else
            && instance.Some?
            && -1 <= s.mode.currentIndex
            && (s.mode.currentIndex < |instance.value.checkpoints| || s.mode.currentIndex == 0))
  }

  /** The distances from the NPC to the registered checkpoints, in registry order. */
  function Distances(checkpoints: seq<Checkpoint>, distanceTo: Checkpoint -> real): (d: seq<real>)
    ensures |d| == |checkpoints|
    ensures forall i :: 0 <= i < |checkpoints| ==> d[i] == distanceTo(checkpoints[i])
  {
    seq(|checkpoints|, i requires 0 <= i < |checkpoints| => distanceTo(checkpoints[i]))
  }

  /** A Process call in progress: the state object as mutated so far, the
      commands issued, the registry singleton and the exception, if one was thrown. */
  datatype Step = Step(state: State, commands: seq<Command>, instance: Option<Environment>, fault: Option<Fault>)

  function Emit(st: Step, cmds: seq<Command>): Step
  {
    st.(commands := st.commands + cmds)
  }

  function WithStage(st: Step, stage: Stage): Step
  {
    st.(state := st.state.(stage := stage))
  }

  /** `nextState = new K(...); stage = EVENT.EXIT;` */
  function Transit(st: Step, k: Kind, obs: Observation): (r: Step)
    ensures r.state.stage == Exit && r.state.next.Some?
    ensures Fresh(r.state.next.value) && r.state.next.value.mode.Name() == k
    ensures r.state.mode == st.state.mode && r.instance == st.instance && r.fault == st.fault
    ensures r.commands == st.commands + Construction(k)
  {
    st.(state := st.state.(stage := Exit, next := Some(New(Initial(k, obs)))),
        commands := st.commands + Construction(k))
  }

  /** The Enter methods. Each starts by setting its animation trigger and ends
      with the stage at UPDATE; RunAway throws before that when its safe
      location is missing. Patrol scans for the nearest checkpoint. */
  function EnterStage(st: Step, obs: Observation): (r: Step)
    requires st.fault.None?
    ensures r.state.mode.Name() == st.state.mode.Name() && r.state.next == st.state.next
    ensures r.fault.Some? <==> st.state.mode == RunningAway(None)
    ensures r.fault.None? ==> r.state.stage == Update
    ensures r.fault.Some? ==> r.state.stage == st.state.stage
    ensures st.instance.Some? ==> r.instance == st.instance
    ensures |r.commands| > |st.commands| && r.commands[..|st.commands|] == st.commands
    ensures r.commands[|st.commands|] == SetTrigger(Animation(st.state.mode.Name()))
  {
    match st.state.mode
    case Idling =>
      WithStage(Emit(st, [SetTrigger(IsIdle)]), Update)
    case Patrolling(i) =>
      var env := Singleton(st.instance, obs.taggedCheckpoints);
      var i' := EnterIndex(Distances(env.checkpoints, obs.distanceTo), i);
      Step(st.state.(mode := Patrolling(i'), stage := Update),
           st.commands + [SetTrigger(IsWalking)], Some(env), None)
    case Pursuing =>
      WithStage(Emit(st, [SetTrigger(IsRunning)]), Update)
    case Attacking =>
      WithStage(Emit(st, [SetTrigger(IsShooting), SetStopped(true), PlayShot]), Update)
    case RunningAway(safe) =>
      var st1 := Emit(st, [SetTrigger(IsRunning), SetStopped(false), SetSpeed(6.0)]);
      match safe
      case None => st1.(fault := Some(MissingSafeLocation))
      case Some(place) => WithStage(Emit(st1, [SetDestination(ToSafeLocation(place))]), Update)
  }

  /** Patrol's perception checks: being seen wins over the player behind. */
  function PatrolPerceive(st: Step, obs: Observation): Step
  {
    if CanSeePlayer(obs.sight) then Transit(st, Pursue, obs)
    else if IsPlayerBehind(obs.sight) then Transit(st, RunAway, obs)
    else st
  }

  /** The Update methods: a guarded choice of successor, or no transition. */
  function UpdateStage(st: Step, obs: Observation): (r: Step)
    requires st.fault.None? && st.state.stage == Update && st.state.next.None?
    ensures r.state.mode.Name() == st.state.mode.Name()
    ensures r.state.stage == Exit ==>
              && r.state.next.Some? && Fresh(r.state.next.value)
              && Edge(st.state.mode.Name(), r.state.next.value.mode.Name())
    ensures r.state.stage != Exit ==> r.state.stage == Update && r.state.next.None?
    ensures r.fault.Some? ==> r.state.stage == Update && st.state.mode.Patrolling?
    ensures st.instance.Some? ==> r.instance == st.instance
    ensures |r.commands| >= |st.commands| && r.commands[..|st.commands|] == st.commands
  {
    match st.state.mode
    case Idling =>
      if CanSeePlayer(obs.sight) then Transit(st, Pursue, obs)
      else if obs.roll < 10 then Transit(st, Patrol, obs)
      else st
    case Patrolling(i) =>
      if obs.remainingDistance < 1.0 then
        var env := Singleton(st.instance, obs.taggedCheckpoints);
        var st1 := st.(instance := Some(env));
        var i' := Advance(i, |env.checkpoints|);
        var st2 := st1.(state := st1.state.(mode := Patrolling(i')));
        if 0 <= i' < |env.checkpoints| then
          PatrolPerceive(Emit(st2, [SetDestination(ToCheckpoint(env.checkpoints[i']))]), obs)
        else
          st2.(fault := Some(CheckpointOutOfRange))
      else
        PatrolPerceive(st, obs)
    case Pursuing =>
      var st1 := Emit(st, [SetDestination(ToPlayer)]);
      if !obs.hasPath then st1
      else if CanAttackPlayer(obs.sight) then Transit(st1, Attack, obs)
      else if !CanSeePlayer(obs.sight) then Transit(st1, Patrol, obs)
      else st1
    case Attacking =>
      if !CanAttackPlayer(obs.sight) then Emit(Transit(st, Idle, obs), [StopShot])
      else st
    case RunningAway(_) =>
      if obs.remainingDistance < 1.0 then Transit(st, Idle, obs)
      else st
  }

  /** The Exit methods: reset the animation trigger, stage EXIT. */
  function ExitStage(st: Step): (r: Step)
    ensures r.state.stage == Exit
    ensures r.state.mode == st.state.mode && r.state.next == st.state.next
    ensures r.instance == st.instance && r.fault == st.fault
    ensures r.commands == st.commands + [ResetTrigger(Animation(st.state.mode.Name()))]
  {
    WithStage(Emit(st, [ResetTrigger(Animation(st.state.mode.Name()))]), Exit)
  }

  /** The result of one Process call: the object itself afterwards, the state
      it returns, the commands issued, the registry singleton afterwards and
      the exception that ended the call, if any. */
  datatype Outcome = Outcome(self: State, returned: State, commands: seq<Command>,
                             instance: Option<Environment>, fault: Option<Fault>)
  {
    /** The call handed control to the successor. */
    predicate Transitioned()
    {
      self.stage == Exit
    }
  }

  /** State.Process: Enter if the stage is ENTER, then Update if the stage is
      (now) UPDATE, then Exit if the stage is (now) EXIT. It returns the
      successor after Exit and the object itself otherwise; an exception ends
      the call with the object mutated as far as it got. */
  function Process(s: State, instance: Option<Environment>, obs: Observation): (o: Outcome)
    requires WellFormed(s)
    ensures o.self.mode.Name() == s.mode.Name()
    ensures o.Transitioned() ==> o.self.next.Some? && o.returned == o.self.next.value
    ensures !o.Transitioned() ==> o.returned == o.self
    ensures o.Transitioned() ==> Fresh(o.returned) && Edge(s.mode.Name(), o.returned.mode.Name())
    ensures o.fault.Some? ==> !o.Transitioned()
    ensures s.stage == Exit ==> o.Transitioned()
    ensures s.stage == Enter && o.fault.None? ==> o.self.stage != Enter
    ensures s.stage == Enter ==> 0 < |o.commands| && o.commands[0] == SetTrigger(Animation(s.mode.Name()))
    ensures o.Transitioned() ==> 0 < |o.commands| && o.commands[|o.commands| - 1] == ResetTrigger(Animation(s.mode.Name()))
    ensures instance.Some? ==> o.instance == instance
    ensures WellFormed(o.returned)
  {
    var st0 := Step(s, [], instance, None);
    var st1 := if s.stage == Enter then EnterStage(st0, obs) else st0;
    if st1.fault.Some? then
      Outcome(st1.state, st1.state, st1.commands, st1.instance, st1.fault)
    else
      var st2 := if st1.state.stage == Update then UpdateStage(st1, obs) else st1;
      if st2.fault.Some? then
        Outcome(st2.state, st2.state, st2.commands, st2.instance, st2.fault)
      else if st2.state.stage == Exit then
        var st3 := ExitStage(st2);
        Outcome(st3.state, st3.state.next.value, st3.commands, st3.instance, None)
      else
        Outcome(st2.state, st2.state, st2.commands, st2.instance, None)
  }

  /** From ENTER, Enter and Update run in the same call: when Enter does not
      throw, the call is Enter's calls followed by a whole Process call on the
      state Enter leaves in UPDATE. */
  lemma EnterThenUpdate(s: State, instance: Option<Environment>, obs: Observation)
    requires WellFormed(s) && s.stage == Enter
    ensures var e := EnterStage(Step(s, [], instance, None), obs);
      e.fault.None? ==>
        && e.state.stage == Update && WellFormed(e.state)
        && var o := Process(s, instance, obs);
           var u := Process(e.state, e.instance, obs);
           && o.self == u.self && o.returned == u.returned
           && o.instance == u.instance && o.fault == u.fault
           && o.commands == e.commands + u.commands
  {
    var e := EnterStage(Step(s, [], instance, None), obs);
    if e.fault.None? {
      var a := UpdateStage(e, obs);
      var b := UpdateStage(e.(commands := []), obs);
      UpdateAppends(e, obs);
      assert a == b.(commands := e.commands + b.commands);
      if a.fault.None? && a.state.stage == Exit {
        assert ExitStage(a).commands == e.commands + ExitStage(b).commands;
      }
    }
  }

  /** Update's calls are appended to whatever the call has issued so far. */
  lemma UpdateAppends(st: Step, obs: Observation)
    requires st.fault.None? && st.state.stage == Update && st.state.next.None?
    ensures var b := UpdateStage(st.(commands := []), obs);
      UpdateStage(st, obs) == b.(commands := st.commands + b.commands)
  {
    match st.state.mode
    case Patrolling(_) => PatrolUpdateAppends(st, obs);
    case Pursuing =>
      var c := [SetDestination(ToPlayer)];
      assert st.commands + c + Construction(Attack) == st.commands + (c + Construction(Attack));
      assert st.commands + c + Construction(Patrol) == st.commands + (c + Construction(Patrol));
    case Attacking =>
      assert st.commands + Construction(Idle) + [StopShot] == st.commands + (Construction(Idle) + [StopShot]);
    case _ =>
  }

  /** UpdateAppends for Patrol, whose arrival emits before the perception checks. */
  lemma PatrolUpdateAppends(st: Step, obs: Observation)
    requires st.fault.None? && st.state.stage == Update && st.state.next.None?
    requires st.state.mode.Patrolling?
    ensures var b := UpdateStage(st.(commands := []), obs);
      UpdateStage(st, obs) == b.(commands := st.commands + b.commands)
  {
    if obs.remainingDistance < 1.0 {
      PatrolArrivalAppends(st, obs);
    } else {
      PerceiveAppends(st, obs);
    }
  }

  /** PatrolUpdateAppends on arrival: the destination comes first. */
  lemma PatrolArrivalAppends(st: Step, obs: Observation)
    requires st.fault.None? && st.state.stage == Update && st.state.next.None?
    requires st.state.mode.Patrolling? && obs.remainingDistance < 1.0
    ensures var b := UpdateStage(st.(commands := []), obs);
      UpdateStage(st, obs) == b.(commands := st.commands + b.commands)
  {
    var env := Singleton(st.instance, obs.taggedCheckpoints);
    var st1 := st.(instance := Some(env));
    var k := Advance(st.state.mode.currentIndex, |env.checkpoints|);
    if 0 <= k < |env.checkpoints| {
      var c := [SetDestination(ToCheckpoint(env.checkpoints[k]))];
      var st2 := st1.(state := st1.state.(mode := Patrolling(k)));
      PerceiveAppends(Emit(st2, c), obs);
      assert Emit(st2, c).(commands := []) == Emit(st2.(commands := []), c).(commands := []);
      assert st.commands + c == Emit(st2, c).commands;
    }
  }

  /** The perception checks append their calls. */
  lemma PerceiveAppends(st: Step, obs: Observation)
    ensures var b := PatrolPerceive(st.(commands := []), obs);
      PatrolPerceive(st, obs) == b.(commands := st.commands + b.commands)
  {
  }

  /** Idle: a visible player always means Pursue, whatever the roll; otherwise
      a roll below 10 means Patrol; otherwise the state stays. */
  lemma IdleChoice(s: State, instance: Option<Environment>, obs: Observation)
    requires WellFormed(s) && s.mode == Idling && s.stage != Exit
    ensures var o := Process(s, instance, obs);
      && o.fault.None?
      && (o.Transitioned() <==> CanSeePlayer(obs.sight) || obs.roll < 10)
      && (CanSeePlayer(obs.sight) ==> o.returned.mode == Pursuing)
      && (!CanSeePlayer(obs.sight) && obs.roll < 10 ==> o.returned.mode == Patrolling(-1))
  {
  }

  /** Patrol's first tick: Enter picks the first nearest checkpoint, and when
      the agent has arrived the same tick's Update heads exactly for it. With
      no checkpoints, an arrival indexes the empty list and throws. */
  lemma PatrolEnterHeadsForNearest(s: State, instance: Option<Environment>, obs: Observation)
    requires Consistent(s, instance) && s.mode.Patrolling? && s.stage == Enter
    ensures var env := Singleton(instance, obs.taggedCheckpoints);
      var d := Distances(env.checkpoints, obs.distanceTo);
      var o := Process(s, instance, obs);
      && o.instance == Some(env)
      && o.self.mode.Patrolling?
      && (o.fault.Some? <==> |d| == 0 && obs.remainingDistance < 1.0)
      && (0 < |d| && obs.remainingDistance < 1.0 ==>
            && IsFirstNearest(d, o.self.mode.currentIndex)
            && SetDestination(ToCheckpoint(env.checkpoints[o.self.mode.currentIndex])) in o.commands)
      && (0 < |d| && 1.0 <= obs.remainingDistance ==> IsFirstNearest(d, o.self.mode.currentIndex + 1))
      && (|d| == 0 ==> o.self.mode.currentIndex == (if obs.remainingDistance < 1.0 then 0 else -1))
  {
    if obs.remainingDistance < 1.0 {
      PatrolEnterArrives(s, instance, obs);
    } else {
      PatrolEnterWaits(s, instance, obs);
    }
  }

  /** The ENTER-stage Patrol tick when the agent has already arrived. */
  lemma PatrolEnterArrives(s: State, instance: Option<Environment>, obs: Observation)
    requires Consistent(s, instance) && s.mode.Patrolling? && s.stage == Enter
    requires obs.remainingDistance < 1.0
    ensures var env := Singleton(instance, obs.taggedCheckpoints);
      var d := Distances(env.checkpoints, obs.distanceTo);
      var o := Process(s, instance, obs);
      && o.instance == Some(env)
      && o.self.mode == Patrolling(Advance(EnterIndex(d, -1), |d|))
      && (o.fault.Some? <==> |d| == 0)
      && (0 < |d| ==> SetDestination(ToCheckpoint(env.checkpoints[o.self.mode.currentIndex])) in o.commands)
  {
    var env := Singleton(instance, obs.taggedCheckpoints);
    var d := Distances(env.checkpoints, obs.distanceTo);
    var j := EnterIndex(d, -1);
    var e := EnterStage(Step(s, [], instance, None), obs);
    assert e.state == State(Patrolling(j), Update, None) && e.instance == Some(env) && e.fault.None?;
    EnterThenUpdate(s, instance, obs);
    PatrolArrival(e.state, e.instance, obs);
  }

  /** The ENTER-stage Patrol tick when the agent has not arrived. */
  lemma PatrolEnterWaits(s: State, instance: Option<Environment>, obs: Observation)
    requires Consistent(s, instance) && s.mode.Patrolling? && s.stage == Enter
    requires 1.0 <= obs.remainingDistance
    ensures var env := Singleton(instance, obs.taggedCheckpoints);
      var d := Distances(env.checkpoints, obs.distanceTo);
      var o := Process(s, instance, obs);
      && o.instance == Some(env)
      && o.self.mode == Patrolling(EnterIndex(d, -1))
      && o.fault.None?
  {
    var env := Singleton(instance, obs.taggedCheckpoints);
    var d := Distances(env.checkpoints, obs.distanceTo);
    var e := EnterStage(Step(s, [], instance, None), obs);
    assert e.state == State(Patrolling(EnterIndex(d, -1)), Update, None) && e.instance == Some(env) && e.fault.None?;
    EnterThenUpdate(s, instance, obs);
    PatrolArrival(e.state, e.instance, obs);
  }

  /** Patrol's Update: on arrival the index advances (with wrap-around) and a
      destination is set before the perception checks, even when the same tick
      leaves the state; being seen wins over the player behind. */
  lemma PatrolArrival(s: State, instance: Option<Environment>, obs: Observation)
    requires Consistent(s, instance) && s.mode.Patrolling? && s.stage == Update
    ensures instance.Some?
    ensures var cps := instance.value.checkpoints;
      var i := s.mode.currentIndex;
      var o := Process(s, instance, obs);
      && o.self.mode.Patrolling?
      && (o.fault.Some? <==> |cps| == 0 && obs.remainingDistance < 1.0)
      && o.self.mode.currentIndex == (if obs.remainingDistance < 1.0 then Advance(i, |cps|) else i)
      && (0 < |cps| && obs.remainingDistance < 1.0 ==>
            && 0 <= o.self.mode.currentIndex < |cps|
            && SetDestination(ToCheckpoint(cps[o.self.mode.currentIndex])) in o.commands)
      && (o.fault.None? ==> (o.Transitioned() <==> CanSeePlayer(obs.sight) || IsPlayerBehind(obs.sight)))
      && (o.fault.None? && CanSeePlayer(obs.sight) ==> o.returned.mode == Pursuing)
      && (o.fault.None? && !CanSeePlayer(obs.sight) && IsPlayerBehind(obs.sight) ==>
            o.returned.mode == RunningAway(obs.safeLocation))
  {
  }

  /** Pursue: the destination is always the player; transitions are considered
      only with a path, and attack range wins over lost sight. */
  lemma PursueChoice(s: State, instance: Option<Environment>, obs: Observation)
    requires WellFormed(s) && s.mode == Pursuing && s.stage != Exit
    ensures var o := Process(s, instance, obs);
      && o.fault.None?
      && SetDestination(ToPlayer) in o.commands
      && (o.Transitioned() <==> obs.hasPath && (CanAttackPlayer(obs.sight) || !CanSeePlayer(obs.sight)))
      && (obs.hasPath && CanAttackPlayer(obs.sight) ==> o.returned.mode == Attacking)
      && (obs.hasPath && !CanAttackPlayer(obs.sight) && !CanSeePlayer(obs.sight) ==>
            o.returned.mode == Patrolling(-1))
  {
  }

  /** Attack: leaves for Idle exactly when the player is out of range. */
  lemma AttackChoice(s: State, instance: Option<Environment>, obs: Observation)
    requires WellFormed(s) && s.mode == Attacking && s.stage != Exit
    ensures var o := Process(s, instance, obs);
      && o.fault.None?
      && (o.Transitioned() <==> !CanAttackPlayer(obs.sight))
      && (o.Transitioned() ==> o.returned.mode == Idling)
  {
  }

  /** Attack stops the shot sound exactly once in the tick it leaves, and never
      otherwise; the sound is started once, on Enter. */
  lemma AttackStopsShotOnce(s: State, instance: Option<Environment>, obs: Observation)
    requires WellFormed(s) && s.mode == Attacking && s.stage != Exit
    ensures var o := Process(s, instance, obs);
      && multiset(o.commands)[StopShot] == (if CanAttackPlayer(obs.sight) then 0 else 1)
      && multiset(o.commands)[PlayShot] == (if s.stage == Enter then 1 else 0)
  {
    AttackCommands(s, instance, obs);
    AttackLogCounts(s.stage == Enter, CanAttackPlayer(obs.sight));
  }

  /** The calls of an active Attack state in one tick: the Enter calls when it
      is entering, the leaving calls when the player is out of range. */
  function AttackLog(entering: bool, inRange: bool): seq<Command>
  {
    (if entering then [SetTrigger(IsShooting), SetStopped(true), PlayShot] else []) +
    (if inRange then [] else [StopShot, ResetTrigger(IsShooting)])
  }

  lemma AttackLogCounts(entering: bool, inRange: bool)
    ensures multiset(AttackLog(entering, inRange))[StopShot] == (if inRange then 0 else 1)
    ensures multiset(AttackLog(entering, inRange))[PlayShot] == (if entering then 1 else 0)
  {
    var enter, stop := SetTrigger(IsShooting), ResetTrigger(IsShooting);
    if entering {
      if inRange {
        assert AttackLog(entering, inRange) == [enter, SetStopped(true), PlayShot];
      } else {
        assert AttackLog(entering, inRange) == [enter, SetStopped(true), PlayShot, StopShot, stop];
      }
    } else {
      if inRange {
        assert AttackLog(entering, inRange) == [];
      } else {
        assert AttackLog(entering, inRange) == [StopShot, stop];
      }
    }
  }

  /** The exact calls an active Attack state makes in one tick. */
  lemma AttackCommands(s: State, instance: Option<Environment>, obs: Observation)
    requires WellFormed(s) && s.mode == Attacking && s.stage != Exit
    ensures Process(s, instance, obs).commands == AttackLog(s.stage == Enter, CanAttackPlayer(obs.sight))
  {
    var st0 := Step(s, [], instance, None);
    if s.stage == Enter {
      var st1 := EnterStage(st0, obs);
      assert st1.commands == [SetTrigger(IsShooting), SetStopped(true), PlayShot];
    }
  }

  /** RunAway: heads for the safe location on Enter (throwing, and so staying
      in ENTER, when there is none) and leaves for Idle exactly on arrival. */
  lemma RunAwayChoice(s: State, instance: Option<Environment>, obs: Observation)
    requires WellFormed(s) && s.mode.RunningAway? && s.stage != Exit
    ensures var o := Process(s, instance, obs);
      && (o.fault.Some? <==> s.stage == Enter && s.mode.safeLocation.None?)
      && (o.fault.Some? ==> o.fault == Some(MissingSafeLocation) && o.returned.stage == Enter)
      && (o.fault.None? ==> (o.Transitioned() <==> obs.remainingDistance < 1.0))
      && (o.Transitioned() ==> o.returned.mode == Idling)
      && (s.stage == Enter && s.mode.safeLocation.Some? ==>
            SetDestination(ToSafeLocation(s.mode.safeLocation.value)) in o.commands)
  {
  }

  /** Process keeps Patrol's currentIndex within the registry. */
  lemma ProcessKeepsConsistent(s: State, instance: Option<Environment>, obs: Observation)
    requires Consistent(s, instance)
    ensures var o := Process(s, instance, obs);
      Consistent(o.returned, o.instance)
  {
    var o := Process(s, instance, obs);
    if s.mode.Patrolling? && !o.Transitioned() {
      if s.stage == Enter {
        PatrolEnterHeadsForNearest(s, instance, obs);
      } else if s.stage == Update {
        PatrolArrival(s, instance, obs);
      }
    }
  }

  /** The only exceptions among the modelled references: a Patrol arriving
      with an empty registry, and a RunAway entering without a safe location. */
  lemma FaultsComeFromMissingObjects(s: State, instance: Option<Environment>, obs: Observation)
    requires Consistent(s, instance) && s.stage != Exit
    ensures var o := Process(s, instance, obs);
      o.fault.Some? <==>
        || (s.mode.Patrolling? && |Singleton(instance, obs.taggedCheckpoints).checkpoints| == 0
            && obs.remainingDistance < 1.0)
        || (s.mode == RunningAway(None) && s.stage == Enter)
  {
    match s.mode
    case Idling => IdleChoice(s, instance, obs);
    case Patrolling(_) =>
      if s.stage == Enter {
        PatrolEnterHeadsForNearest(s, instance, obs);
      } else {
        PatrolArrival(s, instance, obs);
      }
    case Pursuing => PursueChoice(s, instance, obs);
    case Attacking => AttackChoice(s, instance, obs);
    case RunningAway(_) => RunAwayChoice(s, instance, obs);
  }
}

=== FILE: perception.dfy ===
/**
 The three perception predicates of the NPC (State.CanSeePlayer,
 State.IsPlayerBehind, State.CanAttackPlayer). The host's vector geometry is
 not modelled: each tick the host reports the distance between NPC and
 player and two angles, and the predicates are strict threshold tests on them.
 */
module Perception {

  /** What the host geometry reports for one tick.
      `distance`  — |player - npc| (the same magnitude for both directions),
      `angle`     — angle between the NPC's forward and the direction to the player,
      `rearAngle` — angle between the NPC's forward and the direction from the player to the NPC. */
  datatype Sight = Sight(distance: real, angle: real, rearAngle: real)

  const VisionDistance: real := 10.0
  const VisionAngle: real := 30.0
  const ShootDistance: real := 7.0
  const BehindDistance: real := 2.0
  const BehindAngle: real := 30.0

  predicate CanSeePlayer(s: Sight)
  {
    s.distance < VisionDistance && s.angle < VisionAngle
  }

  predicate IsPlayerBehind(s: Sight)
  {
    s.distance < BehindDistance && s.rearAngle < BehindAngle
  }

  predicate CanAttackPlayer(s: Sight)
  {
    s.distance < ShootDistance
  }

  /** Every threshold is strict: a reading exactly at a threshold is not perceived. */
  lemma ThresholdsAreStrict(s: Sight)
    ensures s.distance == VisionDistance || s.angle == VisionAngle ==> !CanSeePlayer(s)
    ensures s.distance == BehindDistance || s.rearAngle == BehindAngle ==> !IsPlayerBehind(s)
    ensures s.distance == ShootDistance ==> !CanAttackPlayer(s)
  {
  }

  /** Moving the player closer and nearer the axis never loses a perception. */
  lemma PerceptionMonotone(s: Sight, t: Sight)
    requires t.distance <= s.distance && t.angle <= s.angle && t.rearAngle <= s.rearAngle
    ensures CanSeePlayer(s) ==> CanSeePlayer(t)
    ensures IsPlayerBehind(s) ==> IsPlayerBehind(t)
    ensures CanAttackPlayer(s) ==> CanAttackPlayer(t)
  {
  }

  /** A player close behind the NPC is always within shooting distance, and a
      player in shooting distance inside the vision angle is always seen. */
  lemma RangesNest(s: Sight)
    ensures IsPlayerBehind(s) ==> CanAttackPlayer(s)
    ensures CanAttackPlayer(s) && s.angle < VisionAngle ==> CanSeePlayer(s)
  {
  }

  /** When the two angles are supplementary (the player is not at the NPC's own
      position, so the two directions are opposite) the vision cone and the rear
      cone cannot both hold. */
  lemma ConesDisjoint(s: Sight)
    requires s.angle + s.rearAngle == 180.0
    ensures !(CanSeePlayer(s) && IsPlayerBehind(s))
  {
  }
}

=== FILE: registry.dfy ===
/**
 The waypoint registry (GameEnvironment): a process-wide list of the scene's
 checkpoints, built on first access from the objects tagged "Checkpoint" and
 ordered by name with a stable sort (LINQ OrderBy). The tag query is an input.
 */
module Registry {
  import opened Wrappers

  /** A scene object tagged "Checkpoint": its name and its object identity. */
  datatype Checkpoint = Checkpoint(name: string, id: nat)

  /** The singleton's state once built: the ordered checkpoint list. */
  datatype Environment = Environment(checkpoints: seq<Checkpoint>)

  /** Ordinal lexicographic order on names (character codes, shorter prefix first). */
  predicate NameLe(a: string, b: string)
    decreases |a|
  {
    |a| == 0 || (|b| > 0 && (a[0] < b[0] || (a[0] == b[0] && NameLe(a[1..], b[1..]))))
  }

  lemma {:induction false} NameLeReflexive(a: string)
    ensures NameLe(a, a)
    decreases |a|
  {
    if |a| > 0 {
      NameLeReflexive(a[1..]);
    }
  }

  lemma {:induction false} NameLeTotal(a: string, b: string)
    ensures NameLe(a, b) || NameLe(b, a)
    decreases |a|
  {
    if |a| > 0 && |b| > 0 && a[0] == b[0] {
      NameLeTotal(a[1..], b[1..]);
    }
  }

  lemma {:induction false} NameLeTransitive(a: string, b: string, c: string)
    requires NameLe(a, b) && NameLe(b, c)
    ensures NameLe(a, c)
    decreases |a|
  {
    if |a| > 0 && a[0] == b[0] && b[0] == c[0] {
      NameLeTransitive(a[1..], b[1..], c[1..]);
    }
  }

  lemma {:induction false} NameLeAntisymmetric(a: string, b: string)
    requires NameLe(a, b) && NameLe(b, a)
    ensures a == b
    decreases |a|
  {
    if |a| > 0 {
      NameLeAntisymmetric(a[1..], b[1..]);
      assert a == [a[0]] + a[1..] && b == [b[0]] + b[1..];
    }
  }

  ghost predicate SortedByName(s: seq<Checkpoint>)
  {
    forall i, j :: 0 <= i < j < |s| ==> NameLe(s[i].name, s[j].name)
  }

  /** The checkpoints of `s` named `n`, in the order they occur in `s`. */
  function WithName(s: seq<Checkpoint>, n: string): seq<Checkpoint>
  {
    if s == [] then [] else (if s[0].name == n then [s[0]] else []) + WithName(s[1..], n)
  }

  /** `r` is what a stable sort by name makes of `found`: ordered by name, a
      permutation of `found`, and equally named checkpoints in discovery order. */
  ghost predicate IsNameOrdering(found: seq<Checkpoint>, r: seq<Checkpoint>)
  {
    && SortedByName(r)
    && multiset(r) == multiset(found)
    && forall n :: WithName(r, n) == WithName(found, n)
  }

  /** Puts `x` in front of the first checkpoint whose name is not below its own. */
  function Insert(x: Checkpoint, s: seq<Checkpoint>): (r: seq<Checkpoint>)
    ensures multiset(r) == multiset(s) + multiset{x}
    ensures |r| == |s| + 1
  {
    if s == [] || NameLe(x.name, s[0].name) then [x] + s
    else
      assert s == [s[0]] + s[1..];
      [s[0]] + Insert(x, s[1..])
  }

  /** Every checkpoint of `Insert(x, s)` is `x` or one of `s`. */
  lemma InsertMembers(x: Checkpoint, s: seq<Checkpoint>, k: int)
    requires 0 <= k < |Insert(x, s)|
    ensures Insert(x, s)[k] == x || exists j :: 0 <= j < |s| && s[j] == Insert(x, s)[k]
  {
    var t := Insert(x, s);
    assert t[k] in multiset(t);
    if t[k] != x {
      assert t[k] in multiset(s);
    }
  }

  lemma {:induction false} InsertSorted(x: Checkpoint, s: seq<Checkpoint>)
    requires SortedByName(s)
    ensures SortedByName(Insert(x, s))
    decreases |s|
  {
    if s == [] || NameLe(x.name, s[0].name) {
      PrependLeast(x, s);
    } else {
      InsertSorted(x, s[1..]);
      NameLeTotal(x.name, s[0].name);
      var t := Insert(x, s[1..]);
      forall k | 0 <= k < |t| ensures NameLe(s[0].name, t[k].name) {
        InsertMembers(x, s[1..], k);
        if t[k] != x {
          var j :| 0 <= j < |s[1..]| && s[1..][j] == t[k];
          assert s[j + 1] == t[k];
        }
      }
      PrependLeast(s[0], t);
    }
  }

  /** A checkpoint whose name is at most every name of a sorted list can go first. */
  lemma PrependLeast(x: Checkpoint, s: seq<Checkpoint>)
    requires SortedByName(s)
    requires s == [] || NameLe(x.name, s[0].name) || forall k :: 0 <= k < |s| ==> NameLe(x.name, s[k].name)
    ensures SortedByName([x] + s)
  {
    var r := [x] + s;
    forall i, j | 0 <= i < j < |r| ensures NameLe(r[i].name, r[j].name) {
      if i == 0 {
        if j > 1 && NameLe(x.name, s[0].name) {
          NameLeTransitive(x.name, s[0].name, s[j - 1].name);
        }
      } else {
        assert r[i] == s[i - 1] && r[j] == s[j - 1];
      }
    }
  }

  lemma {:induction false} InsertKeepsNameOrder(x: Checkpoint, s: seq<Checkpoint>, n: string)
    ensures WithName(Insert(x, s), n) == WithName([x] + s, n)
    decreases |s|
  {
    if s == [] || NameLe(x.name, s[0].name) {
    } else {
      InsertKeepsNameOrder(x, s[1..], n);
      var t := Insert(x, s[1..]);
      assert ([s[0]] + t)[1..] == t;
      assert ([x] + s)[1..] == s;
      assert ([x] + s[1..])[1..] == s[1..];
      if x.name == n && s[0].name == n {
        NameLeReflexive(n);
      }
    }
  }

  /** LINQ OrderBy(name): a stable insertion sort by name. */
  function OrderByName(found: seq<Checkpoint>): (r: seq<Checkpoint>)
    ensures SortedByName(r)
    ensures multiset(r) == multiset(found)
    ensures forall n :: WithName(r, n) == WithName(found, n)
    decreases |found|
  {
    if found == [] then []
    else
      var rest := OrderByName(found[1..]);
      InsertSorted(found[0], rest);
      assert found == [found[0]] + found[1..];
      assert forall n :: WithName(Insert(found[0], rest), n) == WithName(found, n) by {
        forall n ensures WithName(Insert(found[0], rest), n) == WithName(found, n) {
          InsertKeepsNameOrder(found[0], rest, n);
          assert ([found[0]] + rest)[1..] == rest;
        }
      }
      Insert(found[0], rest)
  }

  lemma WithNameCons(x: Checkpoint, t: seq<Checkpoint>, n: string)
    ensures WithName([x] + t, n) == (if x.name == n then [x] else []) + WithName(t, n)
  {
    assert ([x] + t)[1..] == t;
  }

  lemma SortedTail(s: seq<Checkpoint>)
    requires SortedByName(s) && s != []
    ensures SortedByName(s[1..])
  {
    forall p, q | 0 <= p < q < |s[1..]| ensures NameLe(s[1..][p].name, s[1..][q].name) {
      assert s[1..][p] == s[p + 1] && s[1..][q] == s[q + 1];
    }
  }

  /** The head of a list sorted by name carries a least name. */
  lemma HeadIsLeast(s: seq<Checkpoint>, c: Checkpoint)
    requires SortedByName(s) && c in multiset(s)
    ensures NameLe(s[0].name, c.name)
  {
    var i :| 0 <= i < |s| && s[i] == c;
    if i == 0 {
      NameLeReflexive(c.name);
    }
  }

  lemma WithNameOfHead(s: seq<Checkpoint>)
    requires s != []
    ensures WithName(s, s[0].name) == [s[0]] + WithName(s[1..], s[0].name)
  {
  }

  /** Two orderings by name of the same checkpoints start with the same checkpoint. */
  lemma HeadsAgree(a: seq<Checkpoint>, b: seq<Checkpoint>)
    requires SortedByName(a) && SortedByName(b) && multiset(a) == multiset(b) && a != []
    requires WithName(a, a[0].name) == WithName(b, a[0].name)
    ensures b != [] && a[0] == b[0]
  {
    assert |a| == |multiset(a)| == |multiset(b)| == |b|;
    assert a[0] in multiset(b) && b[0] in multiset(a);
    HeadIsLeast(a, b[0]);
    HeadIsLeast(b, a[0]);
    NameLeAntisymmetric(a[0].name, b[0].name);
    WithNameOfHead(a);
    WithNameOfHead(b);
    assert WithName(a, a[0].name)[0] == a[0];
    assert WithName(b, b[0].name)[0] == b[0];
  }

  lemma TailAgreesOn(x: Checkpoint, ta: seq<Checkpoint>, tb: seq<Checkpoint>, m: string)
    requires WithName([x] + ta, m) == WithName([x] + tb, m)
    ensures WithName(ta, m) == WithName(tb, m)
  {
    WithNameCons(x, ta, m);
    WithNameCons(x, tb, m);
    var p, q := WithName(ta, m), WithName(tb, m);
    if x.name == m {
      assert [x] + p == [x] + q;
      ConsCancel(x, p, q);
    } else {
      assert [] + p == [] + q;
      assert p == [] + p;
      assert q == [] + q;
    }
  }

  lemma ConsCancel<T>(x: T, p: seq<T>, q: seq<T>)
    requires [x] + p == [x] + q
    ensures p == q
  {
    assert p == ([x] + p)[1..];
  }

  /** Dropping a common head keeps the per-name subsequences equal. */
  lemma TailsAgree(a: seq<Checkpoint>, b: seq<Checkpoint>)
    requires a != [] && b != [] && a[0] == b[0] && multiset(a) == multiset(b)
    requires forall n :: WithName(a, n) == WithName(b, n)
    ensures multiset(a[1..]) == multiset(b[1..])
    ensures forall n :: WithName(a[1..], n) == WithName(b[1..], n)
  {
    var x, ta, tb := a[0], a[1..], b[1..];
    assert a == [x] + ta;
    assert b == [x] + tb;
    forall m ensures WithName(ta, m) == WithName(tb, m) {
      assert WithName(a, m) == WithName(b, m);
      TailAgreesOn(x, ta, tb, m);
    }
    calc {
      multiset(ta);
      multiset(a) - multiset{x};
      multiset(b) - multiset{x};
      multiset(tb);
    }
  }

  lemma {:induction false} SameOrderingsAreEqual(a: seq<Checkpoint>, b: seq<Checkpoint>)
    requires SortedByName(a) && SortedByName(b) && multiset(a) == multiset(b)
    requires forall n :: WithName(a, n) == WithName(b, n)
    ensures a == b
    decreases |a|
  {
    assert |a| == |multiset(a)| == |multiset(b)| == |b|;
    if a != [] {
      HeadsAgree(a, b);
      TailsAgree(a, b);
      SortedTail(a);
      SortedTail(b);
      SameOrderingsAreEqual(a[1..], b[1..]);
      assert a == [a[0]] + a[1..] && b == [b[0]] + b[1..];
    }
  }

  /** The three properties of IsNameOrdering pin the result down: there is only
      one stable ordering by name of a given list. */
  lemma NameOrderingUnique(found: seq<Checkpoint>, a: seq<Checkpoint>, b: seq<Checkpoint>)
    requires IsNameOrdering(found, a) && IsNameOrdering(found, b)
    ensures a == b
  {
    SameOrderingsAreEqual(a, b);
  }

  /** The GameEnvironment.Singleton getter: builds the registry only when no
      instance exists yet, and returns the stored one otherwise. The new value
      of the static instance is `Some(env)`. */
  function Singleton(instance: Option<Environment>, found: seq<Checkpoint>): (env: Environment)
    ensures instance.Some? ==> env == instance.value
    ensures instance.None? ==> IsNameOrdering(found, env.checkpoints)
  {
    match instance
    case Some(e) => e
    case None => Environment(OrderByName(found))
  }

  /** Once built, the registry no longer depends on what the tag query would return. */
  lemma SingletonBuiltOnce(instance: Option<Environment>, found: seq<Checkpoint>, later: seq<Checkpoint>)
    ensures Singleton(Some(Singleton(instance, found)), later) == Singleton(instance, found)
  {
  }
}

=== FILE: waypoints.dfy ===
/**
 Patrol's waypoint arithmetic: the nearest-checkpoint scan of Patrol.Enter
 and the wrap-around advance of Patrol.Update, over the list of distances from
 the NPC to each registered checkpoint (in registry order).
 */
module Waypoints {
  import opened Wrappers

  /** `k` is the first index of a least distance: no later entry is smaller
      and every earlier entry is strictly larger. */
  ghost predicate IsFirstNearest(d: seq<real>, k: int)
  {
    && 0 <= k < |d|
    && (forall j :: 0 <= j < |d| ==> d[k] <= d[j])
    && (forall j :: 0 <= j < k ==> d[k] < d[j])
  }

  /** The first-nearest index, when it exists, is unique. */
  lemma FirstNearestUnique(d: seq<real>, k: int, k': int)
    requires IsFirstNearest(d, k) && IsFirstNearest(d, k')
    ensures k == k'
  {
    assert d[k] <= d[k'] && d[k'] <= d[k];
  }

  /** The loop of Patrol.Enter from iteration `i` on. `index` is currentIndex
      and `last` the least distance seen so far (None for the initial infinity);
      a strictly smaller distance at `i` sets currentIndex to i - 1. */
  function Scan(d: seq<real>, i: nat, index: int, last: Option<real>): (r: int)
    requires i <= |d|
    requires i == 0 ==> last.None?
    requires 0 < i ==> last.Some? && IsFirstNearest(d[..i], index + 1) && last.value == d[index + 1]
    ensures i == 0 && |d| == 0 ==> r == index
    ensures 0 < |d| ==> IsFirstNearest(d, r + 1)
    decreases |d| - i
  {
    if i == |d| then
      assert d[..i] == d;
      index
    else if last.None? || d[i] < last.value then
      NewNearest(d, i, index + 1);
      Scan(d, i + 1, i - 1, Some(d[i]))
    else
      SameNearest(d, i, index + 1);
      Scan(d, i + 1, index, last)
  }

  /** A strictly smaller distance at `i` becomes the first nearest of d[..i+1]. */
  lemma NewNearest(d: seq<real>, i: nat, k: int)
    requires i < |d|
    requires 0 < i ==> IsFirstNearest(d[..i], k) && d[i] < d[k]
    ensures IsFirstNearest(d[..i + 1], i)
  {
    var p := d[..i + 1];
    forall j | 0 <= j < |p| ensures p[i] <= p[j] {
      if j < i {
        assert d[..i][k] <= d[..i][j];
      }
    }
    forall j | 0 <= j < i ensures p[i] < p[j] {
      assert d[..i][k] <= d[..i][j];
    }
  }

  /** A distance at `i` that is not strictly smaller keeps the first nearest. */
  lemma SameNearest(d: seq<real>, i: nat, k: int)
    requires i < |d| && IsFirstNearest(d[..i], k) && !(d[i] < d[k])
    ensures IsFirstNearest(d[..i + 1], k)
  {
    var p := d[..i + 1];
    forall j | 0 <= j < |p| ensures p[k] <= p[j] {
      if j < i {
        assert d[..i][k] <= d[..i][j];
      }
    }
    forall j | 0 <= j < k ensures p[k] < p[j] {
      assert d[..i][k] < d[..i][j];
    }
  }

  /** currentIndex after Patrol.Enter: one before the first nearest checkpoint,
      or unchanged when there are no checkpoints. */
  function EnterIndex(d: seq<real>, current: int): (r: int)
    ensures |d| == 0 ==> r == current
    ensures 0 < |d| ==> IsFirstNearest(d, r + 1) && -1 <= r <= |d| - 2
  {
    Scan(d, 0, current, None)
  }

  /** The advance of Patrol.Update on arrival: back to 0 from the last index
      (or beyond), otherwise the next index. */
  function Advance(index: int, count: int): (r: int)
    ensures 0 < count && -1 <= index < count ==> 0 <= r < count && r == (index + 1) % count
    ensures count == 0 && -1 <= index ==> r == 0
  {
    if index >= count - 1 then 0 else index + 1
  }

  /** The first arrival after Enter heads exactly for the nearest checkpoint. */
  lemma FirstAdvanceIsNearest(d: seq<real>, current: int)
    requires 0 < |d|
    ensures IsFirstNearest(d, Advance(EnterIndex(d, current), |d|))
  {
  }

  /** currentIndex after `n` arrivals. */
  function AdvanceN(index: int, count: int, n: nat): int
  {
    if n == 0 then index else Advance(AdvanceN(index, count, n - 1), count)
  }

  lemma ModSuccessor(a: nat, c: nat)
    requires 0 < c
    ensures (a % c + 1) % c == (a + 1) % c
  {
    var q, r := a / c, a % c;
    assert a == c * q + r;
    if r + 1 < c {
      ModUnique(a + 1, c, q, r + 1);
    } else {
      assert a + 1 == c * (q + 1);
      ModUnique(a + 1, c, q + 1, 0);
    }
  }

  lemma ModUnique(x: nat, c: nat, q: int, r: int)
    requires 0 < c && 0 <= r < c && x == c * q + r
    ensures x % c == r
  {
    var q', r' := x / c, x % c;
    assert c * (q - q') == r' - r;
    MulBounds(c, q - q');
  }

  lemma MulBounds(c: int, m: int)
    requires 0 <= c
    ensures m >= 1 ==> c * m >= c
    ensures m <= -1 ==> c * m <= 0 - c
    decreases if m < 0 then -m else m
  {
    if m > 1 {
      MulBounds(c, m - 1);
      assert c * m == c * (m - 1) + c;
    } else if m < -1 {
      MulBounds(c, m + 1);
      assert c * m == c * (m + 1) - c;
    }
  }

  /** Starting on checkpoint k, the n-th arrival heads for checkpoint
      (k + n) mod Count: the patrol visits every checkpoint in registry order,
      cyclically. */
  lemma {:induction false} PatrolVisitsCyclically(k: nat, count: nat, n: nat)
    requires k < count
    ensures AdvanceN(k, count, n) == (k + n) % count
  {
    if n > 0 {
      PatrolVisitsCyclically(k, count, n - 1);
      ModSuccessor(k + n - 1, count);
    }
  }
}

=== FILE: wrappers.dfy ===
/** The Some/None datatype standing in for the source's nullable references. */
module Wrappers {

  datatype Option<+T> = None | Some(value: T)
}
